=== FILE: README.md ===
# Session-token authentication core, modelled in Dafny

This project models the session logic of a NestJS authentication backend:

- the **access guard** (`AuthGuard.canActivate`), a pure allow/deny decision;
- the **session operations** of `AuthService`: `register`, `login`, `loginAdmin` and `logout`;
- the **token blacklist** (`TokenBlacklistService`) and its expiry cleanup;
- the **password policy** of `CreateUserDto`;
- the **`User` entity** with its defaults and unique email.

Everything runs as pure functions over immutable values. The user table is a sequence of rows, and the blacklist is a set of entries. Time is an integer count of milliseconds. Several pieces are passed in as functions, with no model of their internals:

- the password check (`bcrypt.compare`);
- the hashing the user repository applies on create;
- JWT verification;
- unverified JWT decoding.

Files and modules:

| file | module | models |
|---|---|---|
| base.dfy | `Base` | `Option`/`Result`, ASCII character classes, `toLowerCase` |
| users.dfy | `Users` | `User` entity, `Role` enum, repository lookups and `create` |
| create_user_dto.dfy | `CreateUserValidation` | the DTO's field decorators as a validator |
| token_blacklist.dfy | `TokenBlacklist` | blacklist entries, insert, lookup, cleanup, operation runs |
| jwt.dfy | `Jwt` | the signed payload and decoded claims, verifier/decoder types |
| jwt_guard.dfy | `JwtGuard` | header extraction, role rule, `canActivate` |
| auth_service.dfy | `AuthService` | `register`, `login`, `loginAdmin`, `logout` |
| sessions.dfy | `Sessions` | properties spanning several operations |

Behaviour of the code worth knowing:

- Registering an email that is already taken is a 400 `HttpException`. There is no separate conflict kind.
- Bad credentials at `loginAdmin` are a 400, not a 401.
- Logging out the same token twice is not idempotent at the service level. The second insert violates the unique index on `token`, and `logout` reports that as 500 `Logout failed`. Through the guarded `logout` route the second request is stopped earlier, by the guard's blacklist check, with 401 `Token has been invalidated` (`Sessions.LogoutThenGuardDenies`). The 500 is only reached by calling `logout` directly, or by two logouts of one token racing past the guard.
- The guard reports every failure after the blacklist check with the one message `Invalid or expired token`. That covers bad or expired tokens, an unknown or banned user, and a missing role.

## Model

| member | source | states |
|---|---|---|
| Base.ToLower | src/auth/guard/jwt-auth.guard.ts:65 | the lower-cased string has the same length and no letter `A`–`Z` left; each position keeps its character or holds the lower-case partner of an upper-case letter |
| Base.ToLowerKeepsLowerCase | src/auth/guard/jwt-auth.guard.ts:65 | a string without upper-case letters is unchanged by lower-casing |
| Base.ToLowerIdempotent | src/auth/guard/jwt-auth.guard.ts:65 | lower-casing twice gives the same string as lower-casing once |
| Users.NewUser | src/users/entities/user.entity.ts:16-24 | a new row keeps the given fields; an absent role becomes the default `USER`, and an absent ban flag becomes `false` |
| Users.FindFirst | src/users/users.service.ts:14-20 | the first-match lookup on a column returns a row of the table holding the key; it is absent exactly when no row holds the key |
| Users.FindFirstUnique | src/users/entities/user.entity.ts:13-14 | when no two rows share a key, looking up any row's key returns exactly that row |
| Users.FindOneByEmail | src/users/users.service.ts:14-16 | the result is a row of the table with that exact email; it is absent exactly when no row has that email |
| Users.FindOne | src/auth/guard/jwt-auth.guard.ts:52 | the result is a row with that id; it is absent exactly when no row has that id |
| Users.FindOneByEmailUnique | src/users/entities/user.entity.ts:13-14 | in a table with unique emails, looking up any row's email returns exactly that row |
| Users.FindOneUnique | src/auth/guard/jwt-auth.guard.ts:52 | in a table with unique ids, looking up a row's id returns exactly that row |
| Users.NextId | src/users/users.service.ts:10-12 | the generated id exceeds every id already in the table |
| Users.Create | src/users/users.service.ts:10-12 | create appends one row holding the body's fields and the hashed password, with the body's role and ban flag when present and the column defaults otherwise, under an id no existing row has |
| Users.CreatePreservesWellFormed | src/users/entities/user.entity.ts:13-14 | creating a user whose email is free keeps both ids and emails unique |
| Users.CreatePreservesRolesInEnum | src/users/entities/user.entity.ts:16-21 | if every stored role is a `Role` value, that stays true after a create |
| CreateUserValidation.StringCheck | src/users/dto/create-user.dto.ts:4-8 | `IsString` reports a violation exactly when the field is not a string, and names only that field |
| CreateUserValidation.CountedLength | src/users/dto/create-user.dto.ts:10 | the length `MinLength` measures never exceeds the number of characters, and equals it for a string without presentation selectors |
| CreateUserValidation.CountedLengthAppend | src/users/dto/create-user.dto.ts:10 | the measured length of a concatenation is the sum of the measured lengths |
| CreateUserValidation.PasswordRuleViolations | src/users/dto/create-user.dto.ts:10-16 | each of the three password rules reports its violation exactly when the value is not a string or fails that rule (≥ 8 counted characters, an `A`–`Z`, a `0`–`9`) |
| CreateUserValidation.Validate | src/users/dto/create-user.dto.ts:3-20 | the body is accepted exactly when all four fields are strings and the password satisfies all three rules |
| CreateUserValidation.CheckPassword | src/users/dto/create-user.dto.ts:10-16 | a second formulation of the password rules, as a cross-check: a single left-to-right scan that counts characters and looks for an upper-case letter `A`–`Z` and a digit `0`–`9` accepts exactly the passwords the declarative rules accept |
| CreateUserValidation.ConfirmPasswordNotCompared | src/users/dto/create-user.dto.ts:18-19 | replacing `confirmPassword` by any string never changes the validation outcome, so it is never compared with `password` |
| CreateUserValidation.UsernameAndEmailUnconstrained | src/users/dto/create-user.dto.ts:4-8 | any strings in `username` and `email` validate the same: no format is checked |
| CreateUserValidation.ExamplePasswordAccepted | src/users/dto/create-user.dto.ts:10-16 | `Abcd1234` passes every rule |
| CreateUserValidation.ExampleVariationSelectorNotCounted | src/users/dto/create-user.dto.ts:10 | `Abcd123` followed by U+FE0F is rejected as too short and for nothing else |
| CreateUserValidation.ExampleNoUppercaseRejected | src/users/dto/create-user.dto.ts:11-13 | `abcd1234` is rejected for the missing upper-case letter and for nothing else |
| TokenBlacklist.IsTokenBlacklisted | src/token-blacklists/token-blacklists.service.ts:27-33 | an empty blacklist blacklists no token; in a table with unique tokens of at most 500 characters, a blacklisted token fits the column |
| TokenBlacklist.BlacklistedIsMonotone | src/token-blacklists/token-blacklists.service.ts:27-33 | a table holding at least the rows of another blacklists every token the smaller one does |
| TokenBlacklist.AddToBlacklist | src/token-blacklists/token-blacklists.service.ts:14-25 | the insert succeeds exactly when the token is absent and fits 500 characters; on success it adds exactly the given `(token, userId, expiresAt)` and keeps every other entry; a present token fails as a duplicate |
| TokenBlacklist.CleanupExpiredTokens | src/token-blacklists/token-blacklists.service.ts:35-41 | cleanup keeps a subset; every entry expiring at `now` or later survives, and no survivor expires before `now` |
| TokenBlacklist.AddPreservesValid | src/token-blacklists/entities/token-blacklist.entity.ts:5-8 | a successful insert keeps tokens unique and at most 500 characters |
| TokenBlacklist.CleanupPreservesValid | src/token-blacklists/entities/token-blacklist.entity.ts:5-8 | cleanup keeps tokens unique and at most 500 characters |
| TokenBlacklist.AddThenLookup | src/token-blacklists/token-blacklists.service.ts:14-33 | after an insert the token is blacklisted, and every other token's status is unchanged |
| TokenBlacklist.AddTwiceFails | src/token-blacklists/entities/token-blacklist.entity.ts:5-8 | inserting an already-present token fails with a duplicate error, whatever user or expiry it carries |
| TokenBlacklist.CleanupLookup | src/token-blacklists/token-blacklists.service.ts:27-41 | after cleanup a token is blacklisted exactly when it had an entry expiring at `now` or later |
| TokenBlacklist.CleanupExact | src/token-blacklists/token-blacklists.service.ts:35-41 | an entry survives cleanup exactly when it was present and `now <= expiresAt`; survivors are unchanged |
| TokenBlacklist.CleanupComposes | src/token-blacklists/token-blacklists.service.ts:37-40 | cleaning at `n1` and then at `n2` equals one cleanup at the later instant, so cleanup is idempotent |
| TokenBlacklist.AddCommutesWithCleanup | src/token-blacklists/token-blacklists.service.ts:14-41 | inserting an entry that has not expired at `now` commutes with cleanup at `now` |
| TokenBlacklist.RunPreservesValid | src/token-blacklists/entities/token-blacklist.entity.ts:5-8 | any sequence of inserts and cleanups keeps tokens unique and within the column width |
| TokenBlacklist.RunKeepsUnexpired | src/token-blacklists/token-blacklists.service.ts:35-41 | an entry survives every sequence of operations whose cleanups all run no later than its expiry |
| JwtGuard.Split | src/auth/guard/jwt-auth.guard.ts:83 | splitting yields at least one piece, and no piece contains a space |
| JwtGuard.JoinSplit | src/auth/guard/jwt-auth.guard.ts:83 | joining the pieces with single spaces gives back the header |
| JwtGuard.SplitJoin | src/auth/guard/jwt-auth.guard.ts:83 | splitting the join of space-free pieces gives back those pieces |
| JwtGuard.SplitAfterPiece | src/auth/guard/jwt-auth.guard.ts:83 | a space-free prefix followed by nothing or by a space becomes the first piece |
| JwtGuard.ExtractTokenFromHeader | src/auth/guard/jwt-auth.guard.ts:77-85 | no header gives no token, and an extracted token never contains a space |
| JwtGuard.ExtractTokenIff | src/auth/guard/jwt-auth.guard.ts:77-85 | extraction yields `t` exactly when the header starts with `Bearer ` then `t` (space-free), followed by the end or a space |
| JwtGuard.CarriesBearerExtracts | src/auth/guard/jwt-auth.guard.ts:83-84 | a header that starts with `Bearer `, then a space-free `t`, then the end or a space, yields `t` |
| JwtGuard.ExtractedIsCarried | src/auth/guard/jwt-auth.guard.ts:83-84 | a header that yields `t` has exactly that shape |
| JwtGuard.ExtractTokenIgnoresExtraPieces | src/auth/guard/jwt-auth.guard.ts:83-84 | `Bearer abc def` yields `abc` |
| JwtGuard.ExtractTokenEmptyPiece | src/auth/guard/jwt-auth.guard.ts:83-84 | `Bearer ` and `Bearer  abc` yield the empty token |
| JwtGuard.ExtractTokenSchemeCaseSensitive | src/auth/guard/jwt-auth.guard.ts:83-84 | `bearer abc` and a bare `Bearer` yield no token |
| JwtGuard.RolesSatisfied | src/auth/guard/jwt-auth.guard.ts:62-69 | a non-empty role requirement is only ever met by a user role that reads `user` or `admin` once lower-cased |
| JwtGuard.DeclaredRolesDecide | src/auth/guard/jwt-auth.guard.ts:60-69 | an endpoint with no role declaration or an empty one admits every user role; a non-empty declaration admits exactly the roles equal to a declared role ignoring case |
| JwtGuard.RolesSatisfiedIgnoresCase | src/auth/guard/jwt-auth.guard.ts:62-69 | two user roles that are equal ignoring case satisfy the same role requirements |
| JwtGuard.RolesSatisfiedExamples | src/auth/guard/jwt-auth.guard.ts:62-69 | role `USER` fails an `ADMIN` requirement; `admin` meets it; `USER` meets `[USER, ADMIN]` |
| JwtGuard.VerifyAndLoad | src/auth/guard/jwt-auth.guard.ts:47-71 | the verification block succeeds exactly when the token verifies, its subject is in the table, that user is not banned and the roles are met; the user it returns is that subject |
| JwtGuard.CanActivate | src/auth/guard/jwt-auth.guard.ts:25-75 | public endpoints are allowed with no user; only three deny messages exist; `No token provided` exactly for a missing or empty token; `Token has been invalidated` only for a blacklisted token; an allow on a protected endpoint implies every check passed and attaches the user found by `sub` |
| JwtGuard.CanActivateAllowIff | src/auth/guard/jwt-auth.guard.ts:35-71 | with unique ids, a protected request is allowed with user `u` exactly when its bearer token is non-empty, not blacklisted and verifies to `u`'s id, and `u` is unbanned with a satisfying role |
| JwtGuard.InnerFailuresCollapse | src/auth/guard/jwt-auth.guard.ts:47-74 | every failure of the verification block reaches the client as `Invalid or expired token` |
| JwtGuard.BlacklistBeforeVerification | src/auth/guard/jwt-auth.guard.ts:41-50 | a blacklisted token is denied as invalidated whatever the verifier would say |
| JwtGuard.PublicIgnoresEverything | src/auth/guard/jwt-auth.guard.ts:26-32 | on a public endpoint the decision depends on nothing else: not the header, blacklist, verifier, user table or roles |
| AuthService.Register | src/auth/auth.service.ts:23-31 | registration fails with 400 `Email already in use` exactly when the email is taken; otherwise the result is exactly what `create` produces: it appends one user under an id no existing row has, with the body's email, name and hashed password, the body's role (else `USER`) and banned only when the body says so |
| AuthService.RegisterPreservesWellFormed | src/auth/auth.service.ts:23-31 | a successful registration on a table with unique ids and emails keeps both unique |
| AuthService.CheckCredentials | src/auth/auth.service.ts:36-38 | credentials pass only for the user found by email, and only when the password check accepts that user's hash |
| AuthService.Login | src/auth/auth.service.ts:34-50 | unknown user or wrong password gives exactly the message-less 401; correct credentials for a banned user give exactly the banned 401; otherwise the payload is the `{sub, email, role}` of the unbanned user with that email |
| AuthService.HasUsableExpiry | src/auth/auth.service.ts:56-60 | claims pass the expiry test only when they carry an `exp`, which then gives a non-zero expiry instant; no claims, no `exp` and `exp` 0 all fail |
| AuthService.LoginAdmin | src/auth/auth.service.ts:85-108 | bad credentials give 400; then a banned user gives 401; then a role other than `ADMIN` gives 401 `Admins only`; success signs the admin's `{sub, email, role}` |
| AuthService.Logout | src/auth/auth.service.ts:52-74 | a missing or zero `exp` gives 400 `Invalid token`; any other failure is 500 `Logout failed`; success happens exactly when the insert succeeds, adds `(token, userId, exp*1000)` to a blacklist that lacked the token, and answers `Successfully logged out` |
| Jwt.PayloadFor | src/auth/auth.service.ts:48 | the signed payload carries the user's id as `sub`, the email and the role |
| Jwt.PayloadForIgnoresSecrets | src/auth/auth.service.ts:106 | two users yield the same payload exactly when they agree on id, email and role: name, password hash and ban flag never reach the token |
| AuthService.LoginAdminIsLoginForAdmins | src/auth/auth.service.ts:34-108 | `loginAdmin` succeeds exactly when `login` succeeds with role `ADMIN`, and then both sign the same payload |
| AuthService.LoginNoUserIgnoresCompare | src/auth/auth.service.ts:36-42 | for an unknown email, `login` gives the message-less 401 whatever the password check would answer |
| AuthService.LogoutTwiceFails | src/auth/auth.service.ts:62-73 | a second logout of the same token fails with 500 |
| Sessions.RegisterThenLogin | src/auth/auth.service.ts:23-50 | after a registration, login with the same password signs the new user's id, email and role (`USER` unless the body named one), or is refused as banned when the body set the ban flag |
| Sessions.RegisterTwiceFails | src/auth/auth.service.ts:26-29 | registering the same email again fails with 400 |
| Sessions.LoginThenGuardAllows | src/auth/guard/jwt-auth.guard.ts:35-71 | a token that verifies to a login payload and is not blacklisted passes an endpoint with no role requirement, which attaches the logged-in user |
| Sessions.LogoutThenGuardDenies | src/auth/auth.service.ts:52-64 | after logout, the token is denied as invalidated; that still holds after any cleanup that runs no later than the token's expiry |
| Sessions.BannedAfterIssueDenied | src/auth/guard/jwt-auth.guard.ts:52-56 | a user banned after the token was issued is denied on the next request with the generic message |

## Left out

- JWT signing (`generateToken`, `signAsync`, `JWT_SECRET`, `JWT_ACCESS_EXP`): `Login` and `LoginAdmin` return the payload given to the signer rather than the signed string, because signing is cryptography outside the model.
- JWT verification and unverified decoding are the function parameters `verify` and `decode`. Signature checks, expiry checks against the clock and base64 parsing are not modelled.
- `bcrypt.compare` is the parameter `compare`. The hashing done by the repository's `create` is the parameter `hash`. No hashing is modelled.
- The user repository (`src/users/user.repository.ts`) is abstracted as a sequence of rows: lookups return the first match, and `create` appends a row whose id is one past the largest in use.
- `MinLength` measures length with validator.js `isLength`: a surrogate pair is one character, and U+FE0E and U+FE0F count for nothing. A Dafny `char` is a whole Unicode scalar value, so `CountedLength` drops only the two selectors. Unpaired surrogates cannot occur in a Dafny string and are not modelled.
- Users.Create: the body reaches the repository unfiltered, so it models the four declared fields plus the entity's `role` and `banned` columns. Other column values a client could add (an explicit `id`, for example) are not modelled: the id is always generated. The body's `role` is assumed to be a `Role` value and its `banned` a boolean: a body whose `role` string is not an enum value, which the enum column refuses, cannot be expressed.
- AuthService.Register: passes the same body to `Users.Create`, so it carries the same limit: only `role` and `banned` beyond the four declared fields are modelled.
- The `select: false` password column is read directly, as the login query must load it.
- `src/auth/guard/enum/role.enum.ts` is not part of this model. Its members are assumed to be stored as `"USER"` and `"ADMIN"`. Only their distinctness and case matter to the proofs.
- `src/common/base.entity.ts` is not part of this model. Its `id` appears as `User.id`, and any columns it adds besides `id` are omitted.
- Reflector metadata becomes the inputs `isPublic` and `declaredRoles`. Environment variables are not read.
- The daily cron trigger and `new Date()` are left out: cleanup takes `now` as milliseconds.
- `new Date(exp * 1000)` is modelled as integer multiplication. JavaScript `Date` range limits and non-numeric `exp` values are not modelled.
- Database failures other than a duplicate token or an over-long token (connection loss, for example) are left out. Every store failure maps to 500 in `Logout` anyway.
- TokenBlacklist.AddToBlacklist: a token longer than 500 characters is modelled as an insert failure, because the database engine is not known. A non-strict engine could truncate it instead.
- Base.ToLower: lower-cases ASCII letters only, while `toLowerCase` also folds non-ASCII letters. Role values are ASCII.
- The HTTP controller (`auth.controller.ts`) and its `CreateAuthDto` validation are left out: that is routing code. So are `login-user.dto.ts`, which has only `IsString` fields, and `token-blacklists.module.ts`, which is module wiring.
- `async`/`await` and concurrent requests are left out: each call is one atomic step.
- Assigning `request.user` before the role check is left out, because the request is rejected whenever that check fails.

=== FILE: auth_service.dfy ===
/**
 * The session operations of the authentication service. Each runs a fixed sequence of checks
 * and fails with its own HTTP error at the first one that does not pass. Password hashing,
 * token signing and token decoding are passed in as functions.
 */
module AuthService {
  import opened Base
  import opened Users
  import opened Jwt
  import TokenBlacklist

  const BadRequest: int := 400
  const Unauthorized: int := 401
  const InternalServerError: int := 500

  const EmailInUseMessage: string := "Email already in use"
  const BannedMessage: string := "Access denied. You are banned."
  const BadAdminCredentialsMessage: string := "The email or password you entered is incorrect"
  const AdminsOnlyMessage: string := "Access denied. Admins only."
  const InvalidTokenMessage: string := "Invalid token"
  const LogoutFailedMessage: string := "Logout failed"
  const LoggedOutMessage: string := "Successfully logged out"

  /** An `HttpException`; `message` is `None` for an `UnauthorizedException` raised without one. */
  datatype HttpError = HttpError(status: int, message: Option<string>)

  /** `bcrypt.compare(plain, hash)`. */
  type PasswordCheck = (string, string) -> bool

  /** What a successful `register` leaves behind: the table with the new row, and the row. */
  datatype Registered = Registered(users: UserTable, user: User)

  /** What a successful `logout` leaves behind: the blacklist with the new entry, and the response body. */
  datatype LoggedOut = LoggedOut(blacklist: TokenBlacklist.Store, message: string)

  /**
   * `register`: refuses an email that is already taken with 400, without creating anything;
   * otherwise the result is exactly what the repository's `create` produces.
   */
  function Register(users: UserTable, dto: CreateUserDto, hash: string -> string): (r: Result<Registered, HttpError>)
    ensures r.Err? <==> exists i :: 0 <= i < |users| && users[i].email == dto.email
    ensures r.Err? ==> r.error == HttpError(BadRequest, Some(EmailInUseMessage))
    ensures r.Ok? ==> (r.value.users, r.value.user) == Create(users, dto, hash)
    ensures r.Ok? ==> r.value.users == users + [r.value.user]
    ensures r.Ok? ==> forall i :: 0 <= i < |users| ==> users[i].id != r.value.user.id
    ensures r.Ok? ==> r.value.user.email == dto.email && r.value.user.username == dto.username
    ensures r.Ok? ==> r.value.user.passwordHash == hash(dto.password)
    ensures r.Ok? ==> r.value.user.role == RoleValue(match dto.role case Some(role) => role case None => USER)
    ensures r.Ok? ==> r.value.user.banned == (dto.banned == Some(true))
  {
    if FindOneByEmail(users, dto.email).Some? then Err(HttpError(BadRequest, Some(EmailInUseMessage)))
    else
      var (users', user) := Create(users, dto, hash);
      Ok(Registered(users', user))
  }

  /** Registration keeps ids and emails unique: it refuses a taken email and issues a fresh id. */
  lemma RegisterPreservesWellFormed(users: UserTable, dto: CreateUserDto, hash: string -> string)
    requires WellFormed(users)
    requires Register(users, dto, hash).Ok?
    ensures WellFormed(Register(users, dto, hash).value.users)
  {
    CreatePreservesWellFormed(users, dto, hash);
  }

  /** `user && bcrypt.compare(password, user.password)`: the password is only compared when a user was found. */
  function CheckCredentials(users: UserTable, email: string, password: string, compare: PasswordCheck): (r: Option<User>)
    ensures r.Some? ==> r == FindOneByEmail(users, email) && compare(password, r.value.passwordHash)
    ensures r.None? ==> FindOneByEmail(users, email).None? || !compare(password, FindOneByEmail(users, email).value.passwordHash)
  {
    match FindOneByEmail(users, email)
    case None => None
    case Some(u) => if compare(password, u.passwordHash) then Some(u) else None
  }

  /**
   * `login`: unknown email or wrong password is a 401 without message; a banned user with the
   * right password is a 401 saying so; otherwise the payload handed to the signer names the
   * user's id, email and role.
   */
  function Login(users: UserTable, email: string, password: string, compare: PasswordCheck): (r: Result<TokenPayload, HttpError>)
    ensures CheckCredentials(users, email, password, compare).None? <==> r == Err(HttpError(Unauthorized, None))
    ensures r == Err(HttpError(Unauthorized, Some(BannedMessage))) <==>
      CheckCredentials(users, email, password, compare).Some? && CheckCredentials(users, email, password, compare).value.banned
    ensures r.Ok? <==>
      CheckCredentials(users, email, password, compare).Some? && !CheckCredentials(users, email, password, compare).value.banned
    ensures r.Ok? ==> exists i :: 0 <= i < |users| && users[i].email == email && !users[i].banned && r.value == PayloadFor(users[i])
  {
    match CheckCredentials(users, email, password, compare)
    case None => Err(HttpError(Unauthorized, None))
    case Some(user) =>
      if user.banned then Err(HttpError(Unauthorized, Some(BannedMessage)))
      else Ok(PayloadFor(user))
  }

  /**
   * `loginAdmin`: bad credentials are a 400, then a banned user is a 401, then a user whose role
   * is not `ADMIN` is a 401; otherwise the payload names the admin's id, email and role.
   */
  function LoginAdmin(users: UserTable, email: string, password: string, compare: PasswordCheck): (r: Result<TokenPayload, HttpError>)
    ensures CheckCredentials(users, email, password, compare).None? <==>
      r == Err(HttpError(BadRequest, Some(BadAdminCredentialsMessage)))
    ensures r == Err(HttpError(Unauthorized, Some(BannedMessage))) <==>
      CheckCredentials(users, email, password, compare).Some? && CheckCredentials(users, email, password, compare).value.banned
    ensures r == Err(HttpError(Unauthorized, Some(AdminsOnlyMessage))) <==>
      && CheckCredentials(users, email, password, compare).Some?
      && !CheckCredentials(users, email, password, compare).value.banned
      && CheckCredentials(users, email, password, compare).value.role != RoleValue(ADMIN)
    ensures r.Ok? ==> r.value.role == RoleValue(ADMIN)
    ensures r.Ok? ==> exists i :: 0 <= i < |users| && users[i].email == email && !users[i].banned && r.value == PayloadFor(users[i])
  {
    match CheckCredentials(users, email, password, compare)
    case None => Err(HttpError(BadRequest, Some(BadAdminCredentialsMessage)))
    case Some(user) =>
      if user.banned then Err(HttpError(Unauthorized, Some(BannedMessage)))
      else if user.role != RoleValue(ADMIN) then Err(HttpError(Unauthorized, Some(AdminsOnlyMessage)))
      else Ok(PayloadFor(user))
  }

  /**
   * The negation of the falsy test `!decodedToken || !decodedToken.exp`: claims were decoded and
   * carry an `exp`, and that `exp` is not 0. A usable expiry becomes a non-zero expiry instant
   * once converted to milliseconds.
   */
  predicate HasUsableExpiry(decoded: Option<DecodedToken>)
    ensures HasUsableExpiry(decoded) ==> decoded.Some? && decoded.value.exp.Some?
    ensures HasUsableExpiry(decoded) ==> decoded.value.exp.value * MillisPerSecond != 0
    ensures decoded == Some(DecodedToken(Some(0))) || decoded == Some(DecodedToken(None)) || decoded == None ==>
      !HasUsableExpiry(decoded)
  {
    decoded.Some? && decoded.value.exp.Some? && decoded.value.exp.value != 0
  }

  /**
   * `logout`: a token without a usable `exp` is a 400 and the blacklist is left alone; otherwise
   * the token is blacklisted for this user until `exp` seconds, as milliseconds. A store failure
   * (the token is already blacklisted, or too long for its column) becomes a 500.
   */
  function Logout(blacklist: TokenBlacklist.Store, token: string, userId: int, decode: Decoder): (r: Result<LoggedOut, HttpError>)
    ensures !HasUsableExpiry(decode(token)) <==> r == Err(HttpError(BadRequest, Some(InvalidTokenMessage)))
    ensures r.Err? && HasUsableExpiry(decode(token)) ==>
      r.error == HttpError(InternalServerError, Some(LogoutFailedMessage))
    ensures r.Ok? <==>
      HasUsableExpiry(decode(token)) && TokenBlacklist.AddToBlacklist(blacklist, token, userId, decode(token).value.exp.value * MillisPerSecond).Ok?
    ensures r.Ok? ==> r.value.message == LoggedOutMessage
    ensures r.Ok? ==>
      var expiresAt := decode(token).value.exp.value * MillisPerSecond;
      && !TokenBlacklist.IsTokenBlacklisted(blacklist, token)
      && r.value.blacklist == blacklist + {TokenBlacklist.Entry(token, userId, expiresAt)}
  {
    var decoded := decode(token);
    if !HasUsableExpiry(decoded) then Err(HttpError(BadRequest, Some(InvalidTokenMessage)))
    else
      var expiresAt := decoded.value.exp.value * MillisPerSecond;
      match TokenBlacklist.AddToBlacklist(blacklist, token, userId, expiresAt)
      case Ok(blacklist') => Ok(LoggedOut(blacklist', LoggedOutMessage))
      case Err(_) => Err(HttpError(InternalServerError, Some(LogoutFailedMessage)))
  }

  /** `login` reports an unknown email and a wrong password identically, and never consults the hash check for an unknown email. */
  lemma LoginNoUserIgnoresCompare(users: UserTable, email: string, password: string, c1: PasswordCheck, c2: PasswordCheck)
    requires forall i :: 0 <= i < |users| ==> users[i].email != email
    ensures Login(users, email, password, c1) == Login(users, email, password, c2) == Err(HttpError(Unauthorized, None))
  {
  }

  /** Logging out the same token twice fails the second time with 500, and the blacklist keeps the first entry. */
  lemma LogoutTwiceFails(blacklist: TokenBlacklist.Store, token: string, u1: int, u2: int, decode: Decoder)
    requires Logout(blacklist, token, u1, decode).Ok?
    ensures Logout(Logout(blacklist, token, u1, decode).value.blacklist, token, u2, decode)
         == Err(HttpError(InternalServerError, Some(LogoutFailedMessage)))
  {
    var x := decode(token).value.exp.value * MillisPerSecond;
    TokenBlacklist.AddTwiceFails(blacklist, token, u1, x, u2, x);
  }

  /**
   * `loginAdmin` signs exactly when `login` would and the user's role is `ADMIN`, and then it
   * signs the same payload.
   */
  lemma LoginAdminIsLoginForAdmins(users: UserTable, email: string, password: string, compare: PasswordCheck)
    ensures LoginAdmin(users, email, password, compare).Ok? <==>
      Login(users, email, password, compare).Ok? && Login(users, email, password, compare).value.role == RoleValue(ADMIN)
    ensures LoginAdmin(users, email, password, compare).Ok? ==>
      LoginAdmin(users, email, password, compare) == Login(users, email, password, compare)
  {
    match CheckCredentials(users, email, password, compare) {
      case None =>
      case Some(u) => assert PayloadFor(u).role == u.role;
    }
  }
}

=== FILE: base.dfy ===
/** `Option`, `Result` and the ASCII character helpers used by the password rules and the role check. */
module Base {

  /** A value that may be absent: JavaScript's `undefined`/`null`. */
  datatype Option<+T> = None | Some(value: T)

  /** The outcome of an operation that either succeeds or throws. */
  datatype Result<+T, +E> = Ok(value: T) | Err(error: E)

  /** ASCII upper-case letter test, the character class `[A-Z]`. */
  predicate IsUpper(c: char) {
    'A' <= c <= 'Z'
  }

  /** ASCII digit test, the character class `\d` of a regular expression without the `u` flag. */
  predicate IsDigit(c: char) {
    '0' <= c <= '9'
  }

  /** Lower-cases one ASCII letter and leaves every other character alone. */
  function LowerChar(c: char): (r: char)
    ensures !IsUpper(r)
    ensures IsUpper(c) ==> r as int == c as int + 32
    ensures !IsUpper(c) ==> r == c
  {
    if IsUpper(c) then (c as int + 32) as char else c
  }

  /**
   * `String.prototype.toLowerCase`, restricted to ASCII: the result has no upper-case letter
   * left, and each position either keeps its character or replaces an upper-case letter by its
   * lower-case partner.
   */
  function ToLower(s: string): (r: string)
    ensures |r| == |s|
    ensures forall i :: 0 <= i < |r| ==> !IsUpper(r[i])
    ensures forall i :: 0 <= i < |s| ==> r[i] == s[i] || (IsUpper(s[i]) && r[i] as int == s[i] as int + 32)
  {
    seq(|s|, i requires 0 <= i < |s| => LowerChar(s[i]))
  }

  /** A string without upper-case letters is its own lower-case form. */
  lemma ToLowerKeepsLowerCase(s: string)
    requires forall i :: 0 <= i < |s| ==> !IsUpper(s[i])
    ensures ToLower(s) == s
  {
    var r := ToLower(s);
    forall i | 0 <= i < |s|
      ensures r[i] == s[i]
    {
    }
  }

  /** Lower-casing twice is lower-casing once. */
  lemma ToLowerIdempotent(s: string)
    ensures ToLower(ToLower(s)) == ToLower(s)
  {
    ToLowerKeepsLowerCase(ToLower(s));
  }
}

=== FILE: create_user_dto.dfy ===
/**
 * The field validation declared on `CreateUserDto`: every field must be a string, and the
 * password must be at least 8 characters long, contain an upper-case letter and contain a digit.
 */
module CreateUserValidation {
  import opened Base

  /** A field of the incoming request body, which may hold a value of any JSON type. */
  datatype Field = Str(s: string) | NotAString

  /** The raw request body before validation. */
  datatype RawCreateUserDto = RawCreateUserDto(username: Field, email: Field, password: Field, confirmPassword: Field)

  datatype FieldName = Username | Email | Password | ConfirmPassword

  /** One failed validation rule; each decorator on the DTO contributes its own. */
  datatype Violation =
    | NotString(field: FieldName)
    | PasswordTooShort
    | PasswordNoUppercase
    | PasswordNoDigit

  const MinPasswordLength: nat := 8

  predicate HasUppercase(s: string) {
    exists i :: 0 <= i < |s| && IsUpper(s[i])
  }

  predicate HasDigit(s: string) {
    exists i :: 0 <= i < |s| && IsDigit(s[i])
  }

  /** The text presentation selector U+FE0E and the emoji presentation selector U+FE0F. */
  predicate IsVariationSelector(c: char) {
    c == '\U{FE0E}' || c == '\U{FE0F}'
  }

  /**
   * The length `MinLength` measures: characters, where a character outside the Basic
   * Multilingual Plane is one character and the two presentation selectors count for nothing.
   */
  function CountedLength(s: string): (n: nat)
    ensures n <= |s|
    ensures (forall i :: 0 <= i < |s| ==> !IsVariationSelector(s[i])) ==> n == |s|
  {
    if |s| == 0 then 0
    else CountedLength(s[..|s| - 1]) + (if IsVariationSelector(s[|s| - 1]) then 0 else 1)
  }

  /** The counted length of a concatenation is the sum of the counted lengths. */
  lemma {:induction false} CountedLengthAppend(a: string, b: string)
    ensures CountedLength(a + b) == CountedLength(a) + CountedLength(b)
    decreases |b|
  {
    if |b| == 0 {
      assert a + b == a;
    } else {
      var b' := b[..|b| - 1];
      assert (a + b)[..|a + b| - 1] == a + b';
      CountedLengthAppend(a, b');
    }
  }

  /** The three password rules on a string value. */
  predicate PasswordRulesHold(s: string) {
    CountedLength(s) >= MinPasswordLength && HasUppercase(s) && HasDigit(s)
  }

  /** The `IsString` decorator on one field. */
  function StringCheck(f: Field, name: FieldName): (v: set<Violation>)
    ensures v == {} <==> f.Str?
    ensures v <= {NotString(name)}
  {
    if f.Str? then {} else {NotString(name)}
  }

  /**
   * The `MinLength` and two `Matches` decorators on the password. Each of them also fails on a
   * value that is not a string.
   */
  function PasswordRuleViolations(f: Field): (v: set<Violation>)
    ensures PasswordTooShort in v <==> !(f.Str? && CountedLength(f.s) >= MinPasswordLength)
    ensures PasswordNoUppercase in v <==> !(f.Str? && HasUppercase(f.s))
    ensures PasswordNoDigit in v <==> !(f.Str? && HasDigit(f.s))
    ensures v <= {PasswordTooShort, PasswordNoUppercase, PasswordNoDigit}
  {
    (if f.Str? && CountedLength(f.s) >= MinPasswordLength then {} else {PasswordTooShort})
    + (if f.Str? && HasUppercase(f.s) then {} else {PasswordNoUppercase})
    + (if f.Str? && HasDigit(f.s) then {} else {PasswordNoDigit})
  }

  /** Every violation the DTO's decorators report for a request body. */
  function Validate(dto: RawCreateUserDto): (v: set<Violation>)
    ensures v == {} <==>
      && dto.username.Str? && dto.email.Str? && dto.confirmPassword.Str?
      && dto.password.Str? && PasswordRulesHold(dto.password.s)
  {
    StringCheck(dto.username, Username)
    + StringCheck(dto.email, Email)
    + StringCheck(dto.password, Password)
    + PasswordRuleViolations(dto.password)
    + StringCheck(dto.confirmPassword, ConfirmPassword)
  }

  /**
   * The password rules checked in one pass over the characters, as a validator would scan it;
   * agrees with the declarative rules.
   */
  method CheckPassword(s: string) returns (ok: bool)
    ensures ok <==> PasswordRulesHold(s)
  {
    var upper := false;
    var digit := false;
    var counted := 0;
    var i := 0;
    while i < |s|
      invariant 0 <= i <= |s|
      invariant counted == CountedLength(s[..i])
      invariant upper <==> exists j :: 0 <= j < i && IsUpper(s[j])
      invariant digit <==> exists j :: 0 <= j < i && IsDigit(s[j])
    {
      assert s[..i + 1][..i] == s[..i];
      if !IsVariationSelector(s[i]) {
        counted := counted + 1;
      }
      if IsUpper(s[i]) {
        upper := true;
      }
      if IsDigit(s[i]) {
        digit := true;
      }
      i := i + 1;
    }
    assert s[..|s|] == s;
    ok := counted >= MinPasswordLength && upper && digit;
  }

  /** `confirmPassword` is never compared with `password`: any string in it validates the same. */
  lemma ConfirmPasswordNotCompared(dto: RawCreateUserDto, other: string)
    requires dto.confirmPassword.Str?
    ensures Validate(dto.(confirmPassword := Str(other))) == Validate(dto)
  {
  }

  /** `username` and `email` carry no format rule: any two strings validate the same. */
  lemma UsernameAndEmailUnconstrained(dto: RawCreateUserDto, username: string, email: string)
    requires dto.username.Str? && dto.email.Str?
    ensures Validate(dto.(username := Str(username), email := Str(email))) == Validate(dto)
  {
  }

  /** A string password with eight characters, an upper-case letter and a digit passes every rule: "Abcd1234". */
  lemma ExamplePasswordAccepted()
    ensures Validate(RawCreateUserDto(Str("alice"), Str("a@x.com"), Str("Abcd1234"), Str("anything"))) == {}
  {
    assert IsUpper("Abcd1234"[0]);
    assert IsDigit("Abcd1234"[4]);
  }

  /**
   * Seven counted characters followed by an emoji presentation selector are eight characters of
   * text but only seven for `MinLength`, so the password is too short.
   */
  lemma ExampleVariationSelectorNotCounted()
    ensures Validate(RawCreateUserDto(Str("carol"), Str("c@x.com"), Str("Abcd123\U{FE0F}"), Str("")))
         == {PasswordTooShort}
  {
    var p := "Abcd123\U{FE0F}";
    CountedLengthAppend("Abcd123", "\U{FE0F}");
    assert "Abcd123" + "\U{FE0F}" == p;
    assert CountedLength("Abcd123") == 7;
    assert IsUpper(p[0]);
    assert IsDigit(p[4]);
  }

  /** A long lower-case password with a digit is rejected for the missing upper-case letter only. */
  lemma ExampleNoUppercaseRejected()
    ensures Validate(RawCreateUserDto(Str("bob"), Str("b@x.com"), Str("abcd1234"), Str("abcd1234")))
         == {PasswordNoUppercase}
  {
    assert IsDigit("abcd1234"[4]);
    assert !HasUppercase("abcd1234");
  }
}

=== FILE: jwt.dfy ===
/**
 * The claims the service puts into and reads out of a JSON Web Token. Signing, signature
 * verification and base64 decoding stay outside the model: callers pass them in as functions.
 */
module Jwt {
  import opened Base
  import opened Users

  /** The payload `login` and `loginAdmin` sign, and the claims a verified token yields. */
  datatype TokenPayload = TokenPayload(sub: int, email: string, role: string)

  /**
   * The claims read from a token without checking its signature. `exp` is the NumericDate of
   * section 4.1.4 of RFC 7519, a count of seconds; `None` when the claim is absent.
   */
  datatype DecodedToken = DecodedToken(exp: Option<int>)

  /** Checks the signature and expiry of a token; `None` when either fails or the token is malformed. */
  type Verifier = string -> Option<TokenPayload>

  /** Reads the claims of a token without checking it; `None` when the token cannot be parsed. */
  type Decoder = string -> Option<DecodedToken>

  /** The payload signed for a user: subject id, email and role, and nothing else. */
  function PayloadFor(u: User): (p: TokenPayload)
    ensures p.sub == u.id && p.email == u.email && p.role == u.role
  {
    TokenPayload(u.id, u.email, u.role)
  }

  /**
   * Two users yield the same payload exactly when they agree on id, email and role: the name,
   * password hash and ban flag never reach the token.
   */
  lemma PayloadForIgnoresSecrets(u: User, v: User)
    ensures PayloadFor(u) == PayloadFor(v) <==> u.id == v.id && u.email == v.email && u.role == v.role
  {
  }

  /** Milliseconds in a second: a NumericDate becomes a JavaScript `Date` by this factor. */
  const MillisPerSecond: int := 1000
}

=== FILE: jwt_guard.dfy ===
/**
 * The per-request access guard: a public endpoint passes; otherwise the bearer token is taken
 * from the `Authorization` header, checked against the blacklist, verified, resolved to a user
 * who must not be banned, and matched against the endpoint's required roles.
 */
module JwtGuard {
  import opened Base
  import opened Users
  import opened Jwt
  import TokenBlacklist

  const NoTokenMessage: string := "No token provided"
  const InvalidatedMessage: string := "Token has been invalidated"
  const InvalidTokenMessage: string := "Invalid or expired token"

  /** The guard's verdict. A public endpoint is allowed without attaching a user to the request. */
  datatype Decision = Allow(user: Option<User>) | Deny(message: string)

  /** The failures raised inside the verification block; all of them reach the client as one message. */
  datatype InnerFailure =
    | VerificationFailed        // bad signature, expired token, malformed token
    | UserNotFoundOrBanned
    | InsufficientPermissions

  // ---------------------------------------------------------------------------------------------
  // Splitting a header on single spaces

  /** `String.prototype.split(' ')`: the pieces between single spaces, empty pieces included. */
  function Split(s: string): (r: seq<string>)
    ensures |r| >= 1
    ensures forall i :: 0 <= i < |r| ==> ' ' !in r[i]
  {
    if |s| == 0 then [""]
    else
      var rest := Split(s[1..]);
      if s[0] == ' ' then [""] + rest
      else [[s[0]] + rest[0]] + rest[1..]
  }

  /** `Array.prototype.join(' ')`. */
  function Join(parts: seq<string>): string
    requires |parts| >= 1
  {
    if |parts| == 1 then parts[0] else parts[0] + " " + Join(parts[1..])
  }

  /** Splitting loses nothing: joining the pieces with single spaces gives back the string. */
  lemma {:induction false} JoinSplit(s: string)
    ensures Join(Split(s)) == s
  {
    if |s| > 0 {
      var rest := Split(s[1..]);
      JoinSplit(s[1..]);
      if s[0] == ' ' {
        assert Split(s) == [""] + rest;
        assert Split(s)[1..] == rest;
      } else {
        var r := Split(s);
        assert r == [[s[0]] + rest[0]] + rest[1..];
        if |rest| == 1 {
          assert Join(r) == [s[0]] + rest[0];
        } else {
          assert r[1..] == rest[1..];
          assert Join(r) == [s[0]] + (rest[0] + " " + Join(rest[1..]));
        }
        assert s == [s[0]] + s[1..];
      }
    }
  }

  /** A space-free piece followed by nothing or by a space splits off as the first piece. */
  lemma {:induction false} SplitAfterPiece(a: string, b: string)
    requires ' ' !in a
    requires b == "" || b[0] == ' '
    ensures b == "" ==> Split(a + b) == [a]
    ensures b != "" ==> Split(a + b) == [a] + Split(b[1..])
  {
    if |a| == 0 {
      assert a + b == b;
      if b != "" {
        assert b[1..] == (a + b)[1..];
      }
    } else {
      SplitAfterPiece(a[1..], b);
      assert (a + b)[1..] == a[1..] + b;
      assert [a[0]] + a[1..] == a;
    }
  }

  /** Joining space-free pieces and splitting again gives back the pieces. */
  lemma {:induction false} SplitJoin(parts: seq<string>)
    requires |parts| >= 1
    requires forall i :: 0 <= i < |parts| ==> ' ' !in parts[i]
    ensures Split(Join(parts)) == parts
  {
    if |parts| == 1 {
      SplitAfterPiece(parts[0], "");
      assert parts[0] + "" == parts[0];
    } else {
      var tail := " " + Join(parts[1..]);
      SplitAfterPiece(parts[0], tail);
      assert tail[1..] == Join(parts[1..]);
      SplitJoin(parts[1..]);
      assert parts[0] + tail == Join(parts);
      assert [parts[0]] + parts[1..] == parts;
    }
  }

  // ---------------------------------------------------------------------------------------------
  // Token extraction

  /**
   * `extractTokenFromHeader`: no header (or an empty one) gives no token; otherwise the header
   * is split on single spaces and the second piece is the token when the first is exactly
   * `Bearer`. Further pieces are ignored.
   */
  function ExtractTokenFromHeader(authorization: Option<string>): (r: Option<string>)
    ensures authorization.None? ==> r.None?
    ensures r.Some? ==> ' ' !in r.value
  {
    if authorization.None? || authorization.value == "" then None
    else
      var pieces := Split(authorization.value);
      if pieces[0] == "Bearer" && |pieces| >= 2 then Some(pieces[1]) else None
  }

  /**
   * The header shapes that carry token `t`, read off the characters directly: `Bearer`, one
   * space, `t` free of spaces, then the end of the header or another space.
   */
  predicate CarriesBearer(h: string, t: string) {
    && ' ' !in t
    && |h| >= 7 + |t|
    && h[..7 + |t|] == "Bearer " + t
    && (|h| == 7 + |t| || h[7 + |t|] == ' ')
  }

  /** A header that carries `t` yields `t`. */
  lemma {:induction false} CarriesBearerExtracts(h: string, t: string)
    requires CarriesBearer(h, t)
    ensures ExtractTokenFromHeader(Some(h)) == Some(t)
  {
    var rest := h[7 + |t|..];
    assert h == "Bearer" + (" " + t + rest);
    SplitAfterPiece("Bearer", " " + t + rest);
    assert (" " + t + rest)[1..] == t + rest;
    SplitAfterPiece(t, rest);
  }

  /** A header that yields `t` carries `t`. */
  lemma {:induction false} ExtractedIsCarried(h: string, t: string)
    requires ExtractTokenFromHeader(Some(h)) == Some(t)
    ensures CarriesBearer(h, t)
  {
    var p := Split(h);
    JoinSplit(h);
    assert p[0] == "Bearer" && p[1] == t;
    assert Join(p) == "Bearer" + " " + Join(p[1..]);
    if |p| == 2 {
      assert Join(p[1..]) == t;
      assert h == "Bearer " + t;
    } else {
      assert Join(p[1..]) == t + " " + Join(p[2..]);
      assert h == "Bearer " + t + " " + Join(p[2..]);
      assert h[..7 + |t|] == "Bearer " + t;
    }
  }

  /** Extraction agrees with the header shapes: it yields `t` exactly when the header carries `t`. */
  lemma ExtractTokenIff(h: string, t: string)
    ensures ExtractTokenFromHeader(Some(h)) == Some(t) <==> CarriesBearer(h, t)
  {
    if CarriesBearer(h, t) {
      CarriesBearerExtracts(h, t);
    }
    if ExtractTokenFromHeader(Some(h)) == Some(t) {
      ExtractedIsCarried(h, t);
    }
  }

  /** `Bearer abc def` carries `abc`: pieces after the second are ignored. */
  lemma ExtractTokenIgnoresExtraPieces()
    ensures ExtractTokenFromHeader(Some("Bearer abc def")) == Some("abc")
  {
    assert CarriesBearer("Bearer abc def", "abc");
    ExtractTokenIff("Bearer abc def", "abc");
  }

  /** `Bearer ` and `Bearer  abc` carry the empty token, which the guard then refuses. */
  lemma ExtractTokenEmptyPiece()
    ensures ExtractTokenFromHeader(Some("Bearer ")) == Some("")
    ensures ExtractTokenFromHeader(Some("Bearer  abc")) == Some("")
  {
    assert CarriesBearer("Bearer ", "");
    ExtractTokenIff("Bearer ", "");
    assert CarriesBearer("Bearer  abc", "");
    ExtractTokenIff("Bearer  abc", "");
  }

  /** The scheme name is matched case-sensitively, and a scheme without a second piece carries nothing. */
  lemma ExtractTokenSchemeCaseSensitive()
    ensures ExtractTokenFromHeader(Some("bearer abc")) == None
    ensures ExtractTokenFromHeader(Some("Bearer")) == None
  {
    var t := ExtractTokenFromHeader(Some("bearer abc"));
    if t.Some? {
      ExtractTokenIff("bearer abc", t.value);
      assert "bearer abc"[0] != "Bearer "[0];
    }
    var t2 := ExtractTokenFromHeader(Some("Bearer"));
    if t2.Some? {
      ExtractTokenIff("Bearer", t2.value);
    }
  }

  // ---------------------------------------------------------------------------------------------
  // Roles

  /** Two strings are equal after `toLowerCase`. */
  predicate SameIgnoringCase(a: string, b: string) {
    ToLower(a) == ToLower(b)
  }

  /** The lower-case forms of the enum's role strings. */
  lemma LowerRoleValues()
    ensures forall r: Role :: ToLower(RoleValue(r)) == "user" || ToLower(RoleValue(r)) == "admin"
  {
    assert ToLower(RoleValue(USER)) == "user";
    assert ToLower(RoleValue(ADMIN)) == "admin";
  }

  /**
   * No required roles impose no restriction; otherwise some required role must match the user's
   * role ignoring case. So a non-empty requirement can only be met by a role that reads `user` or
   * `admin` once lower-cased.
   */
  predicate RolesSatisfied(requiredRoles: seq<Role>, userRole: string)
    ensures RolesSatisfied(requiredRoles, userRole) && |requiredRoles| > 0 ==>
      ToLower(userRole) == "user" || ToLower(userRole) == "admin"
  {
    LowerRoleValues();
    |requiredRoles| == 0
    || exists i :: 0 <= i < |requiredRoles| && SameIgnoringCase(RoleValue(requiredRoles[i]), userRole)
  }

  /** `getRequiredRoles`: the roles declared on the handler or class, or none. */
  function GetRequiredRoles(declared: Option<seq<Role>>): seq<Role> {
    match declared
    case Some(rs) => rs
    case None => []
  }

  /**
   * An endpoint without a role declaration, or with an empty one, admits every role; one with a
   * non-empty declaration admits exactly the roles equal to a declared one up to case.
   */
  lemma DeclaredRolesDecide(declared: Option<seq<Role>>, userRole: string)
    ensures declared == None || declared == Some([]) ==> RolesSatisfied(GetRequiredRoles(declared), userRole)
    ensures declared.Some? && |declared.value| > 0 ==>
      (RolesSatisfied(GetRequiredRoles(declared), userRole) <==>
       exists r :: r in declared.value && ToLower(RoleValue(r)) == ToLower(userRole))
  {
    if declared.Some? && |declared.value| > 0 {
      var rs := declared.value;
      if RolesSatisfied(rs, userRole) {
        var i :| 0 <= i < |rs| && SameIgnoringCase(RoleValue(rs[i]), userRole);
        assert rs[i] in rs;
      }
      if exists r :: r in rs && ToLower(RoleValue(r)) == ToLower(userRole) {
        var r :| r in rs && ToLower(RoleValue(r)) == ToLower(userRole);
        var i :| 0 <= i < |rs| && rs[i] == r;
        assert SameIgnoringCase(RoleValue(rs[i]), userRole);
      }
    }
  }

  /** The role check only sees the user's role up to case. */
  lemma RolesSatisfiedIgnoresCase(requiredRoles: seq<Role>, a: string, b: string)
    requires SameIgnoringCase(a, b)
    ensures RolesSatisfied(requiredRoles, a) <==> RolesSatisfied(requiredRoles, b)
  {
  }

  /** A user whose stored role is `USER` is refused by an endpoint that requires `ADMIN`, and accepted by one requiring `USER`. */
  lemma RolesSatisfiedExamples()
    ensures !RolesSatisfied([ADMIN], "USER")
    ensures RolesSatisfied([ADMIN], "admin")
    ensures RolesSatisfied([USER, ADMIN], "USER")
  {
    assert ToLower("ADMIN")[0] != ToLower("USER")[0];
    assert SameIgnoringCase(RoleValue([ADMIN][0]), "admin");
    assert SameIgnoringCase(RoleValue([USER, ADMIN][0]), "USER");
  }

  // ---------------------------------------------------------------------------------------------
  // The decision

  /** The `try` block: verify the token, load its subject, refuse a banned user, check the roles. */
  function VerifyAndLoad(token: string, verify: Verifier, users: UserTable, requiredRoles: seq<Role>): (r: Result<User, InnerFailure>)
    ensures r.Ok? <==>
      && verify(token).Some?
      && FindOne(users, verify(token).value.sub).Some?
      && !FindOne(users, verify(token).value.sub).value.banned
      && RolesSatisfied(requiredRoles, FindOne(users, verify(token).value.sub).value.role)
    ensures r.Ok? ==> r.value in users && r.value.id == verify(token).value.sub && !r.value.banned
  {
    match verify(token)
    case None => Err(VerificationFailed)
    case Some(payload) =>
      match FindOne(users, payload.sub)
      case None => Err(UserNotFoundOrBanned)
      case Some(user) =>
        if user.banned then Err(UserNotFoundOrBanned)
        else if !RolesSatisfied(requiredRoles, user.role) then Err(InsufficientPermissions)
        else Ok(user)
  }

  /**
   * `canActivate`. The checks short-circuit in order: public endpoint, token present, token not
   * blacklisted, then the verification block, whose every failure becomes one message.
   */
  function CanActivate(isPublic: bool, authorization: Option<string>, blacklist: TokenBlacklist.Store,
                       verify: Verifier, users: UserTable, declaredRoles: Option<seq<Role>>): (r: Decision)
    ensures isPublic ==> r == Allow(None)
    ensures r.Deny? ==> r.message in {NoTokenMessage, InvalidatedMessage, InvalidTokenMessage}
    ensures !isPublic ==>
      (r == Deny(NoTokenMessage) <==> ExtractTokenFromHeader(authorization) in {None, Some("")})
    ensures !isPublic && r == Deny(InvalidatedMessage) ==>
      TokenBlacklist.IsTokenBlacklisted(blacklist, ExtractTokenFromHeader(authorization).value)
    ensures r.Allow? && !isPublic ==>
      var t := ExtractTokenFromHeader(authorization).value;
      && t != ""
      && !TokenBlacklist.IsTokenBlacklisted(blacklist, t)
      && verify(t).Some?
      && r.user == FindOne(users, verify(t).value.sub)
      && r.user.Some?
      && !r.user.value.banned
      && RolesSatisfied(GetRequiredRoles(declaredRoles), r.user.value.role)
  {
    if isPublic then Allow(None)
    else
      match ExtractTokenFromHeader(authorization)
      case None => Deny(NoTokenMessage)
      case Some(token) =>
        if token == "" then Deny(NoTokenMessage)
        else if TokenBlacklist.IsTokenBlacklisted(blacklist, token) then Deny(InvalidatedMessage)
        else
          match VerifyAndLoad(token, verify, users, GetRequiredRoles(declaredRoles))
          case Ok(user) => Allow(Some(user))
          case Err(_) => Deny(InvalidTokenMessage)
  }

  /**
   * The guard allows a request to a protected endpoint exactly when its header carries a
   * non-empty bearer token that is not blacklisted, verifies to a subject present in the table,
   * belongs to a user who is not banned and whose role meets the endpoint's roles.
   */
  lemma CanActivateAllowIff(authorization: string, blacklist: TokenBlacklist.Store, verify: Verifier,
                            users: UserTable, declaredRoles: Option<seq<Role>>, t: string, u: User)
    requires WellFormed(users)
    requires CarriesBearer(authorization, t)
    ensures CanActivate(false, Some(authorization), blacklist, verify, users, declaredRoles) == Allow(Some(u)) <==>
      && t != ""
      && !TokenBlacklist.IsTokenBlacklisted(blacklist, t)
      && verify(t).Some?
      && u in users
      && u.id == verify(t).value.sub
      && !u.banned
      && RolesSatisfied(GetRequiredRoles(declaredRoles), u.role)
  {
    ExtractTokenIff(authorization, t);
    if t != "" && verify(t).Some? && u in users && u.id == verify(t).value.sub {
      var i :| 0 <= i < |users| && users[i] == u;
      FindOneUnique(users, u.id, i);
    }
  }

  /** Every failure after the blacklist check is reported with the same message, whatever its kind. */
  lemma InnerFailuresCollapse(authorization: string, blacklist: TokenBlacklist.Store, verify: Verifier,
                              users: UserTable, declaredRoles: Option<seq<Role>>, t: string)
    requires CarriesBearer(authorization, t) && t != ""
    requires !TokenBlacklist.IsTokenBlacklisted(blacklist, t)
    requires VerifyAndLoad(t, verify, users, GetRequiredRoles(declaredRoles)).Err?
    ensures CanActivate(false, Some(authorization), blacklist, verify, users, declaredRoles) == Deny(InvalidTokenMessage)
  {
    ExtractTokenIff(authorization, t);
  }

  /** A blacklisted token is refused before its signature is looked at: the verifier does not affect the outcome. */
  lemma BlacklistBeforeVerification(authorization: string, blacklist: TokenBlacklist.Store,
                                    v1: Verifier, v2: Verifier, users: UserTable, declaredRoles: Option<seq<Role>>, t: string)
    requires CarriesBearer(authorization, t) && t != ""
    requires TokenBlacklist.IsTokenBlacklisted(blacklist, t)
    ensures CanActivate(false, Some(authorization), blacklist, v1, users, declaredRoles) == Deny(InvalidatedMessage)
    ensures CanActivate(false, Some(authorization), blacklist, v2, users, declaredRoles) == Deny(InvalidatedMessage)
  {
    ExtractTokenIff(authorization, t);
  }

  /** A public endpoint reads neither the header, the blacklist, the verifier nor the user table. */
  lemma PublicIgnoresEverything(h1: Option<string>, h2: Option<string>, b1: TokenBlacklist.Store, b2: TokenBlacklist.Store,
                                v1: Verifier, v2: Verifier, u1: UserTable, u2: UserTable, d1: Option<seq<Role>>, d2: Option<seq<Role>>)
    ensures CanActivate(true, h1, b1, v1, u1, d1) == CanActivate(true, h2, b2, v2, u2, d2)
  {
  }
}

=== FILE: sessions.dfy ===
/**
 * Properties that span several operations: what a session looks like from registration
 * through login, guarded requests, logout and blacklist cleanup.
 */
module Sessions {
  import opened Base
  import opened Users
  import opened Jwt
  import TokenBlacklist
  import JwtGuard
  import AuthService

  /**
   * A fresh registration can log in with the same password: the signed payload names the new
   * user with the role the body asked for (`USER` when it asked for none), unless the body
   * itself set the ban flag, in which case login is refused as banned.
   */
  lemma RegisterThenLogin(users: UserTable, dto: CreateUserDto, hash: string -> string, compare: AuthService.PasswordCheck)
    requires WellFormed(users)
    requires AuthService.Register(users, dto, hash).Ok?
    requires compare(dto.password, hash(dto.password))
    ensures
      var reg := AuthService.Register(users, dto, hash).value;
      var role := match dto.role case Some(r) => r case None => USER;
      AuthService.Login(reg.users, dto.email, dto.password, compare)
        == if dto.banned == Some(true) then Err(AuthService.HttpError(AuthService.Unauthorized, Some(AuthService.BannedMessage)))
           else Ok(TokenPayload(reg.user.id, dto.email, RoleValue(role)))
  {
    var reg := AuthService.Register(users, dto, hash).value;
    CreatePreservesWellFormed(users, dto, hash);
    assert reg.users[|users|] == reg.user;
    FindOneByEmailUnique(reg.users, dto.email, |users|);
  }

  /** Registering the same email twice fails the second time with 400. */
  lemma RegisterTwiceFails(users: UserTable, dto: CreateUserDto, other: CreateUserDto, hash: string -> string)
    requires AuthService.Register(users, dto, hash).Ok?
    requires other.email == dto.email
    ensures AuthService.Register(AuthService.Register(users, dto, hash).value.users, other, hash)
         == Err(AuthService.HttpError(AuthService.BadRequest, Some(AuthService.EmailInUseMessage)))
  {
    var reg := AuthService.Register(users, dto, hash).value;
    assert reg.users[|users|].email == other.email;
  }

  /**
   * A token obtained by logging in, presented while it still verifies and is not blacklisted,
   * passes the guard of an endpoint without role requirements, which attaches the logged-in user.
   */
  lemma LoginThenGuardAllows(users: UserTable, email: string, password: string, compare: AuthService.PasswordCheck,
                             token: string, blacklist: TokenBlacklist.Store, verify: Verifier)
    requires WellFormed(users)
    requires AuthService.Login(users, email, password, compare).Ok?
    requires verify(token) == Some(AuthService.Login(users, email, password, compare).value)
    requires token != "" && ' ' !in token
    requires !TokenBlacklist.IsTokenBlacklisted(blacklist, token)
    ensures
      var u := FindOneByEmail(users, email).value;
      JwtGuard.CanActivate(false, Some("Bearer " + token), blacklist, verify, users, None) == JwtGuard.Allow(Some(u))
  {
    var u := FindOneByEmail(users, email).value;
    assert JwtGuard.CarriesBearer("Bearer " + token, token);
    JwtGuard.CanActivateAllowIff("Bearer " + token, blacklist, verify, users, None, token, u);
  }

  /**
   * After a successful logout the same token is refused as invalidated, whatever the verifier
   * says of it, and stays refused through every cleanup that runs no later than its expiry.
   */
  lemma LogoutThenGuardDenies(blacklist: TokenBlacklist.Store, token: string, userId: int, decode: Decoder,
                              verify: Verifier, users: UserTable, roles: Option<seq<Role>>, now: int)
    requires AuthService.Logout(blacklist, token, userId, decode).Ok?
    requires token != "" && ' ' !in token
    requires now <= decode(token).value.exp.value * MillisPerSecond
    ensures
      var after := AuthService.Logout(blacklist, token, userId, decode).value.blacklist;
      && JwtGuard.CanActivate(false, Some("Bearer " + token), after, verify, users, roles)
           == JwtGuard.Deny(JwtGuard.InvalidatedMessage)
      && JwtGuard.CanActivate(false, Some("Bearer " + token), TokenBlacklist.CleanupExpiredTokens(after, now), verify, users, roles)
           == JwtGuard.Deny(JwtGuard.InvalidatedMessage)
  {
    var after := AuthService.Logout(blacklist, token, userId, decode).value.blacklist;
    var e := TokenBlacklist.Entry(token, userId, decode(token).value.exp.value * MillisPerSecond);
    assert e in after;
    assert e in TokenBlacklist.CleanupExpiredTokens(after, now);
    assert JwtGuard.CarriesBearer("Bearer " + token, token);
    JwtGuard.BlacklistBeforeVerification("Bearer " + token, after, verify, verify, users, roles, token);
    JwtGuard.BlacklistBeforeVerification("Bearer " + token, TokenBlacklist.CleanupExpiredTokens(after, now),
                                         verify, verify, users, roles, token);
  }

  /** A user banned after the token was issued is refused on the next request with the generic message. */
  lemma BannedAfterIssueDenied(users: UserTable, i: int, token: string, blacklist: TokenBlacklist.Store,
                               verify: Verifier, roles: Option<seq<Role>>)
    requires WellFormed(users)
    requires 0 <= i < |users| && users[i].banned
    requires token != "" && ' ' !in token
    requires !TokenBlacklist.IsTokenBlacklisted(blacklist, token)
    requires verify(token) == Some(PayloadFor(users[i]))
    ensures JwtGuard.CanActivate(false, Some("Bearer " + token), blacklist, verify, users, roles)
         == JwtGuard.Deny(JwtGuard.InvalidTokenMessage)
  {
    FindOneUnique(users, users[i].id, i);
    assert JwtGuard.CarriesBearer("Bearer " + token, token);
    JwtGuard.InnerFailuresCollapse("Bearer " + token, blacklist, verify, users, roles, token);
  }
}

=== FILE: token_blacklist.dfy ===
/**
 * The token blacklist: revoked tokens with the user who revoked them and the instant (in
 * milliseconds) at which the token would have expired anyway.
 */
module TokenBlacklist {
  import opened Base

  /** The `varchar(500)` width of the token column. */
  const MaxTokenLength: nat := 500

  /** A row of the `token_blacklist` table. */
  datatype Entry = Entry(token: string, userId: int, expiresAt: int)

  /** The table is the set of its rows. */
  type Store = set<Entry>

  /** Why the table refused an insert. */
  datatype StoreError =
    | DuplicateToken   // the unique index on `token` already holds this token
    | TokenTooLong     // the token does not fit the `varchar(500)` column

  /** The unique index on `token` and the column width both hold. */
  ghost predicate Valid(s: Store) {
    && (forall e1, e2 :: e1 in s && e2 in s && e1.token == e2.token ==> e1 == e2)
    && (forall e :: e in s ==> |e.token| <= MaxTokenLength)
  }

  /**
   * `isTokenBlacklisted`: some row holds exactly this token. An empty table blacklists nothing,
   * and in a valid table a blacklisted token fits the column.
   */
  predicate IsTokenBlacklisted(s: Store, token: string)
    ensures s == {} ==> !IsTokenBlacklisted(s, token)
    ensures Valid(s) && IsTokenBlacklisted(s, token) ==> |token| <= MaxTokenLength
  {
    exists e :: e in s && e.token == token
  }

  /** A table holding at least the rows of another blacklists at least the same tokens. */
  lemma BlacklistedIsMonotone(s: Store, t: Store, token: string)
    requires s <= t
    ensures IsTokenBlacklisted(s, token) ==> IsTokenBlacklisted(t, token)
  {
  }

  /**
   * `addToBlacklist`: saves a new row. Saving a token that is already present violates the
   * unique index and fails; nothing is merged.
   */
  function AddToBlacklist(s: Store, token: string, userId: int, expiresAt: int): (r: Result<Store, StoreError>)
    ensures r.Ok? <==> !IsTokenBlacklisted(s, token) && |token| <= MaxTokenLength
    ensures r.Err? && IsTokenBlacklisted(s, token) ==> r.error == DuplicateToken
    ensures r.Err? && !IsTokenBlacklisted(s, token) ==> r.error == TokenTooLong
    ensures r.Ok? ==> Entry(token, userId, expiresAt) in r.value
    ensures r.Ok? ==> r.value - {Entry(token, userId, expiresAt)} == s
    ensures r.Ok? ==> |r.value| == |s| + 1
  {
    if IsTokenBlacklisted(s, token) then Err(DuplicateToken)
    else if |token| > MaxTokenLength then Err(TokenTooLong)
    else
      assert Entry(token, userId, expiresAt) !in s;
      Ok(s + {Entry(token, userId, expiresAt)})
  }

  /** `cleanupExpiredTokens` at instant `now`: deletes the rows whose expiry lies strictly before `now`. */
  function CleanupExpiredTokens(s: Store, now: int): (r: Store)
    ensures r <= s
    ensures forall e :: e in s && e.expiresAt >= now ==> e in r
    ensures forall e :: e in r ==> e.expiresAt >= now
  {
    set e | e in s && !(e.expiresAt < now)
  }

  /** Valid stores stay valid under insert. */
  lemma AddPreservesValid(s: Store, token: string, userId: int, expiresAt: int)
    requires Valid(s)
    requires AddToBlacklist(s, token, userId, expiresAt).Ok?
    ensures Valid(AddToBlacklist(s, token, userId, expiresAt).value)
  {
  }

  /** Valid stores stay valid under cleanup. */
  lemma CleanupPreservesValid(s: Store, now: int)
    requires Valid(s)
    ensures Valid(CleanupExpiredTokens(s, now))
  {
  }

  /** After a successful insert the token is blacklisted, and every other token keeps its status. */
  lemma AddThenLookup(s: Store, token: string, userId: int, expiresAt: int, other: string)
    requires AddToBlacklist(s, token, userId, expiresAt).Ok?
    ensures IsTokenBlacklisted(AddToBlacklist(s, token, userId, expiresAt).value, token)
    ensures other != token ==>
      (IsTokenBlacklisted(AddToBlacklist(s, token, userId, expiresAt).value, other) <==> IsTokenBlacklisted(s, other))
  {
    var s' := AddToBlacklist(s, token, userId, expiresAt).value;
    assert Entry(token, userId, expiresAt) in s';
  }

  /** Inserting the same token twice fails the second time, whatever user or expiry it carries. */
  lemma AddTwiceFails(s: Store, token: string, u1: int, e1: int, u2: int, e2: int)
    requires AddToBlacklist(s, token, u1, e1).Ok?
    ensures AddToBlacklist(AddToBlacklist(s, token, u1, e1).value, token, u2, e2) == Err(DuplicateToken)
  {
    AddThenLookup(s, token, u1, e1, token);
  }

  /** A token is blacklisted after cleanup exactly when it has a row that has not yet expired. */
  lemma CleanupLookup(s: Store, now: int, token: string)
    ensures IsTokenBlacklisted(CleanupExpiredTokens(s, now), token) <==>
      exists e :: e in s && e.token == token && e.expiresAt >= now
  {
    var r := CleanupExpiredTokens(s, now);
    if IsTokenBlacklisted(r, token) {
      var e :| e in r && e.token == token;
      assert e in s && e.expiresAt >= now;
    }
  }

  /** Cleanup removes exactly the expired rows and changes no surviving row. */
  lemma CleanupExact(s: Store, now: int, e: Entry)
    ensures e in CleanupExpiredTokens(s, now) <==> e in s && now <= e.expiresAt
  {
  }

  /** Running cleanup at `n1` and then at `n2` is one cleanup at the later instant; in particular it is idempotent. */
  lemma CleanupComposes(s: Store, n1: int, n2: int)
    ensures CleanupExpiredTokens(CleanupExpiredTokens(s, n1), n2)
         == CleanupExpiredTokens(s, if n1 < n2 then n2 else n1)
  {
  }

  /** An entry that has not expired at `now` survives the cleanup, so insert and cleanup commute. */
  lemma AddCommutesWithCleanup(s: Store, token: string, userId: int, expiresAt: int, now: int)
    requires AddToBlacklist(s, token, userId, expiresAt).Ok?
    requires now <= expiresAt
    ensures AddToBlacklist(CleanupExpiredTokens(s, now), token, userId, expiresAt).Ok?
    ensures CleanupExpiredTokens(AddToBlacklist(s, token, userId, expiresAt).value, now)
         == AddToBlacklist(CleanupExpiredTokens(s, now), token, userId, expiresAt).value
  {
  }

  /** One step a caller can take against the store. */
  datatype Op =
    | Add(token: string, userId: int, expiresAt: int)
    | Cleanup(now: int)

  /** Applies one operation; a failed insert leaves the store as it was. */
  function Step(s: Store, op: Op): Store {
    match op
    case Add(t, u, x) => (match AddToBlacklist(s, t, u, x) case Ok(n) => n case Err(_) => s)
    case Cleanup(now) => CleanupExpiredTokens(s, now)
  }

  /** Applies a sequence of operations in order. */
  function Run(s: Store, ops: seq<Op>): (r: Store)
    decreases |ops|
  {
    if |ops| == 0 then s else Run(Step(s, ops[0]), ops[1..])
  }

  /** No sequence of operations ever breaks token uniqueness or the column width. */
  lemma {:induction false} RunPreservesValid(s: Store, ops: seq<Op>)
    requires Valid(s)
    ensures Valid(Run(s, ops))
    decreases |ops|
  {
    if |ops| > 0 {
      var s' := Step(s, ops[0]);
      match ops[0] {
        case Add(t, u, x) =>
          if AddToBlacklist(s, t, u, x).Ok? {
            AddPreservesValid(s, t, u, x);
          }
        case Cleanup(now) =>
          CleanupPreservesValid(s, now);
      }
      RunPreservesValid(s', ops[1..]);
    }
  }

  /** A token blacklisted at a store stays blacklisted through every run that never cleans up past its expiry. */
  lemma {:induction false} RunKeepsUnexpired(s: Store, ops: seq<Op>, e: Entry)
    requires e in s
    requires forall i :: 0 <= i < |ops| && ops[i].Cleanup? ==> ops[i].now <= e.expiresAt
    ensures e in Run(s, ops)
    decreases |ops|
  {
    if |ops| > 0 {
      var s' := Step(s, ops[0]);
      assert e in s';
      assert forall i :: 0 <= i < |ops[1..]| ==> ops[1..][i] == ops[i + 1];
      RunKeepsUnexpired(s', ops[1..], e);
    }
  }
}

=== FILE: users.dfy ===
/** The `User` entity and the user repository it lives in, as an ordered table of rows. */
module Users {
  import opened Base

  /** The `Role` enum the `role` column ranges over. */
  datatype Role = USER | ADMIN

  /** The string stored for each enum member. */
  function RoleValue(r: Role): (s: string)
    ensures |s| > 0
  {
    match r
    case USER => "USER"
    case ADMIN => "ADMIN"
  }

  /** A row of the `user` table. `role` is a string column, `passwordHash` the `password` column. */
  datatype User = User(id: int, username: string, passwordHash: string, email: string, role: string, banned: bool)

  /**
   * The request body `register` hands to the repository unchanged: the four declared fields,
   * and the `role` and `banned` properties when the client sent them, since nothing strips them.
   */
  datatype CreateUserDto = CreateUserDto(username: string, email: string, password: string, confirmPassword: string,
                                         role: Option<Role>, banned: Option<bool>)

  /** The table is the sequence of its rows. */
  type UserTable = seq<User>

  /** Primary keys are unique and the `unique: true` email column holds each email at most once. */
  ghost predicate WellFormed(rows: UserTable) {
    && (forall i, j :: 0 <= i < j < |rows| ==> rows[i].id != rows[j].id)
    && (forall i, j :: 0 <= i < j < |rows| ==> rows[i].email != rows[j].email)
  }

  /** Every role value in the table is a value of the `Role` enum. */
  ghost predicate RolesInEnum(rows: UserTable) {
    forall i :: 0 <= i < |rows| ==> exists r: Role :: rows[i].role == RoleValue(r)
  }

  /**
   * Builds a new row. An absent role becomes the column default `USER`, an absent ban flag
   * becomes the column default `false`.
   */
  function NewUser(id: int, username: string, passwordHash: string, email: string,
                   role: Option<Role>, banned: Option<bool>): (u: User)
    ensures u.id == id && u.username == username && u.passwordHash == passwordHash && u.email == email
    ensures role.None? ==> u.role == RoleValue(USER)
    ensures role.Some? ==> u.role == RoleValue(role.value)
    ensures banned.None? ==> !u.banned
    ensures banned.Some? ==> u.banned == banned.value
  {
    User(id, username, passwordHash, email,
         RoleValue(match role case Some(r) => r case None => USER),
         match banned case Some(b) => b case None => false)
  }

  /** The first row whose `key` equals `k`: one lookup for every unique column. */
  function FindFirst<K(==)>(rows: UserTable, key: User -> K, k: K): (r: Option<User>)
    ensures r.Some? ==> r.value in rows && key(r.value) == k
    ensures r.None? <==> forall i :: 0 <= i < |rows| ==> key(rows[i]) != k
  {
    if |rows| == 0 then None
    else if key(rows[0]) == k then Some(rows[0])
    else FindFirst(rows[1..], key, k)
  }

  /** When no two rows share a key, the lookup returns the one row that holds it. */
  lemma FindFirstUnique<K>(rows: UserTable, key: User -> K, k: K, i: int)
    requires forall a, b :: 0 <= a < b < |rows| ==> key(rows[a]) != key(rows[b])
    requires 0 <= i < |rows| && key(rows[i]) == k
    ensures FindFirst(rows, key, k) == Some(rows[i])
  {
    var r := FindFirst(rows, key, k);
    var j :| 0 <= j < |rows| && rows[j] == r.value;
    assert j == i;
  }

  /** `findOneByEmail`: the first row whose email equals `email` exactly. */
  function FindOneByEmail(rows: UserTable, email: string): (r: Option<User>)
    ensures r.Some? ==> r.value in rows && r.value.email == email
    ensures r.None? <==> forall i :: 0 <= i < |rows| ==> rows[i].email != email
  {
    FindFirst(rows, (u: User) => u.email, email)
  }

  /** `findOne(id)`: the first row whose primary key is `id`. */
  function FindOne(rows: UserTable, id: int): (r: Option<User>)
    ensures r.Some? ==> r.value in rows && r.value.id == id
    ensures r.None? <==> forall i :: 0 <= i < |rows| ==> rows[i].id != id
  {
    FindFirst(rows, (u: User) => u.id, id)
  }

  /** Because emails are unique, a lookup by email returns the one and only row that has it. */
  lemma FindOneByEmailUnique(rows: UserTable, email: string, i: int)
    requires WellFormed(rows)
    requires 0 <= i < |rows| && rows[i].email == email
    ensures FindOneByEmail(rows, email) == Some(rows[i])
  {
    FindFirstUnique(rows, (u: User) => u.email, email, i);
  }

  /** Because ids are unique, a lookup by id returns the one and only row that has it. */
  lemma FindOneUnique(rows: UserTable, id: int, i: int)
    requires WellFormed(rows)
    requires 0 <= i < |rows| && rows[i].id == id
    ensures FindOne(rows, id) == Some(rows[i])
  {
    FindFirstUnique(rows, (u: User) => u.id, id, i);
  }

  /** The id the table generates for the next row: one past the largest id in use (1 for an empty table). */
  function NextId(rows: UserTable): (n: int)
    ensures forall i :: 0 <= i < |rows| ==> rows[i].id < n
    ensures n >= 1
  {
    if |rows| == 0 then 1
    else
      var rest := NextId(rows[1..]);
      if rows[0].id + 1 > rest then rows[0].id + 1 else rest
  }

  /**
   * The repository's `create`: stores a new row with a fresh id, the hashed password, and the
   * body's role and ban flag where it carries them, the column defaults otherwise; returns the
   * table with the stored row.
   */
  function Create(rows: UserTable, dto: CreateUserDto, hash: string -> string): (r: (UserTable, User))
    ensures r.0 == rows + [r.1]
    ensures r.1 == NewUser(r.1.id, dto.username, hash(dto.password), dto.email, dto.role, dto.banned)
    ensures forall i :: 0 <= i < |rows| ==> rows[i].id != r.1.id
  {
    var u := NewUser(NextId(rows), dto.username, hash(dto.password), dto.email, dto.role, dto.banned);
    (rows + [u], u)
  }

  /** Creating a user whose email is not yet taken keeps ids and emails unique. */
  lemma CreatePreservesWellFormed(rows: UserTable, dto: CreateUserDto, hash: string -> string)
    requires WellFormed(rows)
    requires FindOneByEmail(rows, dto.email).None?
    ensures WellFormed(Create(rows, dto, hash).0)
  {
    var (rows', u) := Create(rows, dto, hash);
    assert rows'[|rows|] == u;
  }

  /** A created user's role is an enum value, so every role in the table stays an enum value. */
  lemma CreatePreservesRolesInEnum(rows: UserTable, dto: CreateUserDto, hash: string -> string)
    requires RolesInEnum(rows)
    ensures RolesInEnum(Create(rows, dto, hash).0)
  {
    var (rows', u) := Create(rows, dto, hash);
    forall i | 0 <= i < |rows'|
      ensures exists r: Role :: rows'[i].role == RoleValue(r)
    {
      if i == |rows| {
        assert rows'[i].role == RoleValue(match dto.role case Some(r) => r case None => USER);
      } else {
        assert rows'[i] == rows[i];
      }
    }
  }
}
